=== FILE: README.md ===
# Discrete core of the step-1 decomposition trainer

`train_step1.py` learns two weighting networks. They compose an *object* token
embedding and an *attribute* token embedding as weighted sums over candidate
vocabularies. The two rows are written into the text encoder's token table at
`placeholder_token_id` and `placeholder_token_id - 1`, and the networks are
trained through a frozen diffusion model. Around the floating-point work sit a few exact
rules that decide which rows and candidates take part in each step. This
project models those rules in Dafny and proves what the loop relies on.

| module | file | what it models |
|---|---|---|
| `PyRuntime` | pyruntime.dfy | Python semantics the script depends on: the errors it raises, negative-index wrap-around, `[:stop]` slicing with a negative stop, and `math.ceil(a / b)` on integers |
| `Ranking` | ranking.dfy | the index half of a descending `torch.sort`, as a specification (any descending permutation, ties in any order); a top selection; an insertion argsort that meets the specification |
| `Dataset` | dataset.dfy | `CUSDataset` length, the image read for item `i`, the centre-crop box, and the data loader's batch count |
| `Schedule` | schedule.dfy | resolving `max_train_steps` and `num_train_epochs` |
| `VocabularyIndexer` | vocabulary.dfy | the prefix of the similarity ranking in `get_vocabulary_indices` |
| `CandidateFilter` | candidates.dfy | noun mask, masked object weights, the explanation subset (top `K`) and the attribute subset (top `M`) |
| `EmbeddingComposer` | composer.dfy | the weighted sums `torch.matmul(w, rows)` behind the object, attribute and explanation embeddings, coordinate by coordinate, before the norm rescaling |
| `EmbeddingTable` | table.dfy | the token table as `seq<Row>` with `Row` abstract: the placeholder writes, the `index_no_updates` mask, the restore from the snapshot, and the validation write |
| `Training` | training.dfy | one step, one epoch and the whole epoch/batch loop, with the step counter, the validation hook and the save-and-break |

Python errors become `Err` values: `IndexError` is `IndexOutOfRange` and
`ZeroDivisionError` is `ZeroDivision`, and the data loader's two
`ValueError`s are `EmptySampler` and `NonPositiveBatch`. A `RuntimeError`
from reshaping a tensor is `ShapeMismatch`. A `requires` states what the script
guarantees before the call, and nothing more.

Three behaviours of the script are easy to misread. The model follows the
script in each:
- Ties in the selections are not broken by a stable sort. `torch.sort` gives
  no stability guarantee, so every selection takes any descending permutation
  of the keys as a parameter, and every property holds for all of them.
- The explanation subset does not always return exactly `K` indices. The list
  comprehension over `range(K)` raises IndexError when `K` exceeds the
  vocabulary, and a negative `K` gives no indices. The attribute subset is a
  slice, so it clips instead.
- The script never checks the snapshot invariant at run time. The model
  proves the invariant at every step boundary instead.

## Model

| member | source | states |
|---|---|---|
| PyRuntime.Wrap | train_step1.py:669-670 | a Python index into `n` rows is valid exactly in `[-n, n)`; it names row `i` or `i + n`, which is below `n` |
| PyRuntime.SliceStop | train_step1.py:396 | `[:stop]` keeps a prefix of at most `n` elements, and position `i` is kept exactly when `i` is before a non-negative stop, or when its negative alias `i - n` is before a negative one |
| PyRuntime.ViewRows | train_step1.py:417 | `view(-1, cols)` succeeds exactly when `cols` is positive and divides the element count, and the inferred row count times `cols` is that count; otherwise it raises RuntimeError |
| PyRuntime.CeilDiv | train_step1.py:570-572 | the integer ceiling of `a / b` brackets `a` between `(q - 1) * b` exclusive and `q * b` inclusive; a zero divisor raises |
| PyRuntime.CeilUnique | train_step1.py:570-572 | at most one integer meets that bracket, so the ceiling is determined by it |
| Ranking.PermutationCovers | train_step1.py:394 | a duplicate-free list of `n` positions below `n` lists every such position (pigeonhole) |
| Ranking.PrefixIsTopSelection | train_step1.py:394-396 | every prefix of a descending argsort is distinct and in range, is non-increasing in key, and no left-out index has a larger key than a selected one |
| Ranking.InsertDescendingCorrect | train_step1.py:394 | inserting the next position into a descending order of the earlier positions gives a descending order of all of them |
| Ranking.ArgsortDescending | train_step1.py:394 | the insertion argsort returns a permutation of the positions along which the keys do not increase, so the sort specification can always be met |
| Dataset.ImageIndex | train_step1.py:307 | `i % num_images` is in range and congruent to `i`; with no images it raises |
| Dataset.EveryImageVisitedRepeatsTimes | train_step1.py:286-290 | over the training split's `num_images * repeats` items, every image is read exactly `repeats` times |
| Dataset.BlockVisits | train_step1.py:307 | within one block of `num_images` consecutive items, image `j` is read once, at offset `j` |
| Dataset.CropBox | train_step1.py:334-345 | with centre crop, the box is a `min(h, w)` square inside the image, with margins that differ by at most one; without it, the box is the whole image |
| Dataset.CenteredSpan | train_step1.py:343-345 | `(n + c) // 2 - (n - c) // 2 == c`, and both ends lie inside `[0, n]` |
| Dataset.LoaderLength | train_step1.py:525-536 | a shuffling loader is built exactly when the dataset and the batch size are both positive, and then has at least one batch, with the batch count bracketing the dataset length by the batch size; an empty dataset raises ValueError from the random sampler before the batch size is checked |
| Schedule.TrainingPlan | train_step1.py:565-572 | a given step budget is kept, and an absent one becomes `num_train_epochs * steps_per_epoch`; the epoch count is the ceiling of budget over steps per epoch; zero steps per epoch raises ZeroDivisionError, which a loader that was built never gives |
| Schedule.DerivedBudgetKeepsEpochs | train_step1.py:568-572 | a derived budget gives back the configured epoch count under the ceiling |
| Schedule.EpochsPositiveIffSteps | train_step1.py:570-572 | at least one epoch runs exactly when the step budget is positive |
| VocabularyIndexer.VocabularyIndices | train_step1.py:394-396 | `min(N, V)` indices (or `max(V + N, 0)` for a negative `N`), distinct and in range, with non-increasing scores; no excluded index scores higher than an included one |
| CandidateFilter.Magnitudes | train_step1.py:657 | `abs()` gives a non-negative value equal to the weight or its negation |
| CandidateFilter.NounMask | train_step1.py:649-654 | the mask has `vocabulary_size` 0/1 entries, and an entry is 1 exactly when the decoded candidate is tagged as a noun; reading past the candidate list raises |
| CandidateFilter.MaskWeights | train_step1.py:655 | under a 0/1 mask, the masked weight is the raw weight where the mask is 1 and 0 where it is 0 |
| CandidateFilter.MaskedWeightsKeepOnlyNouns | train_step1.py:649-655 | the masked object weights are the raw weights at noun candidates and 0 at the others |
| CandidateFilter.NounPositions | train_step1.py:649-654 | the positions where the mask is 1, each once |
| CandidateFilter.ExplanationSubset | train_step1.py:719-721 | for `K` no larger than the vocabulary, `max(K, 0)` distinct in-range indices whose masked magnitudes dominate every unselected one; a larger `K` raises IndexError |
| CandidateFilter.AttributeSubset | train_step1.py:663-665 | `min(M, word_size)` indices (the slice's count for a negative `M`), distinct, with the largest magnitudes |
| CandidateFilter.ExplanationSubsetIsNouns | train_step1.py:649-657 | when noun weights are positive and there are at least `K` nouns, every index in the explanation subset is a noun |
| EmbeddingComposer.GatherSum | train_step1.py:723-725 | the sum over listed positions, behind the gathered products of lines 665 and 723-725, has one coordinate per embedding dimension; when every listed weight is zero, every coordinate is zero |
| EmbeddingComposer.CombineAtZero | train_step1.py:659 | a sum whose listed weights are all zero is zero, whatever the rows |
| EmbeddingComposer.WeightedSum | train_step1.py:659 | the sum over all positions has one coordinate per dimension and is zero when every weight is zero |
| EmbeddingComposer.GatheredMatmul | train_step1.py:723-725 | `torch.matmul(w[idx], rows[idx])` over the gathered weights and rows equals the sum over the listed positions of the full ones |
| EmbeddingComposer.ObjectEmbedding | train_step1.py:659 | the object sum has one coordinate per dimension, and is the zero vector (whose norm the script then divides by) when every masked weight is zero |
| EmbeddingComposer.TopEmbedding | train_step1.py:723-725 | the explanation embedding is the sum over the explanation subset of the masked weights and vocabulary rows |
| EmbeddingComposer.AttributeEmbedding | train_step1.py:665 | the attribute embedding is the sum over the top-`M` attribute positions of the attribute weights and word rows |
| EmbeddingComposer.CombineAtReadsOnlyListed | train_step1.py:665 | a gathered weighted sum reads the weights and rows at the listed positions only |
| EmbeddingComposer.AttributeEmbeddingIgnoresUnselected | train_step1.py:663-665 | the attribute sum is unchanged by any change of weights or rows outside the top-`M` selection |
| EmbeddingComposer.MaskedOutContributeNothing | train_step1.py:655-659 | the object sum over the masked weights equals the raw-weight sum over the noun positions alone |
| EmbeddingComposer.CombineAtAppend | train_step1.py:723-725 | summing over a concatenation of position lists is the sum of the two sums |
| EmbeddingComposer.CombineAtPermutation | train_step1.py:723-725 | summing over any permutation of `0 .. n - 1` gives the in-order sum |
| EmbeddingComposer.FullExplanationIsObjectEmbedding | train_step1.py:719-725 | with `K` equal to the vocabulary size, the explanation embedding equals the object embedding |
| EmbeddingTable.WriteRow | train_step1.py:669-670 | a Python-indexed row write changes exactly the wrapped row and raises outside `[-n, n)` |
| EmbeddingTable.SlotsDistinct | train_step1.py:669-670 | both placeholder rows are in range, and they are different rows exactly when the table has more than one row |
| EmbeddingTable.Compose | train_step1.py:669-670 | the object row lands at the object slot, the attribute row lands at the attribute slot (unless one row is both), and no other row changes |
| EmbeddingTable.NoUpdateMask | train_step1.py:739-741 | the mask is false exactly at the two placeholder rows |
| EmbeddingTable.RestoreMaskedIdempotent | train_step1.py:743-746 | restoring twice from the same snapshot is restoring once, and restoring the snapshot itself changes nothing |
| EmbeddingTable.Restore | train_step1.py:739-746 | after the update and the restore through the `index_no_updates` mask, every non-placeholder row is the snapshot's and each placeholder row is what the update made of it |
| EmbeddingTable.Update | train_step1.py:739-746 | after write, arbitrary update and restore, every non-placeholder row is the snapshot's; the placeholder rows are what the update left of the written table |
| EmbeddingTable.UpdateKeepsComposedRows | train_step1.py:669-746 | when the update spares the placeholder rows, they still hold the rows just written |
| EmbeddingTable.ValidationWrite | train_step1.py:754 | the explanation row lands at the object placeholder and nothing else changes |
| Training.ObjectSizesFit | train_step1.py:386-396 | with the candidates the `[:vocabulary_size]` prefix of the ranking of the `T` precomputed text encodings loaded at line 386, the object network's view and the noun-mask reads both succeed exactly when `0 < vocabulary_size <= T`, and a positive `vocabulary_size` never yields more candidates than itself |
| Training.SelectionsFitIffFilterSucceeds | train_step1.py:649-721 | the step's two read checks hold exactly when the noun mask and the explanation subset of the candidate filter both succeed |
| Training.Step | train_step1.py:647-754 | one step completes exactly when both networks' views fit (`vocabulary_size` positive and dividing the candidate count, `word_size` positive and dividing the attribute word count), `vocabulary_size` candidates exist and no more (the object matmul of line 659), `num_explanation_tokens` is at most `vocabulary_size`, both placeholder rows are addressable and `validation_steps` is non-zero; otherwise it raises the error of the first check that fails, in the script's order; a completed step keeps the table's length and agrees with the snapshot off the placeholders, and is the plain update, followed, when the new count is a multiple of `validation_steps`, by the validation write of the explanation row at the object slot alone |
| Training.Replay | train_step1.py:641-754 | replaying `Step` `n` times from the snapshot gives `n` boundaries of the table's length, and fails exactly when there is a step and a step cannot complete |
| Training.FollowsAt | train_step1.py:641-754 | in a record that follows the replay, boundary `k` is step `k` applied to the snapshot (for `k = 0`) or to boundary `k - 1` |
| Training.RunEpoch | train_step1.py:641-766 | an epoch fails exactly when it has a batch and a step cannot complete, with the step's error; otherwise it adds `min(steps_per_epoch, budget - global_step)` step boundaries and keeps the earlier ones, each new boundary being `Step` applied to the one before it; it saves exactly when it reaches the budget |
| Training.EpochBoundary | train_step1.py:760-766 | reaching the step budget inside an epoch makes it the last epoch, and finishing an epoch short of the budget leaves another to run |
| Training.Train | train_step1.py:639-766 | the loop ends with `global_step == max(max_train_steps, 0)`; it saves exactly once, in the last epoch, when the budget is positive; the step boundaries are exactly the replay of `Step` from the snapshot, so each holds the rows that step composed, updated, restored and (on a validation step) overwrote, and each agrees with the snapshot off the placeholders; and it fails exactly when the budget is positive and a step cannot complete, with that step's error |
| Training.RunEpochs | train_step1.py:639-766 | under a resolved plan, the epoch loop runs exactly `max(budget, 0)` steps, saves once in the last epoch when the budget is positive, and its boundaries are the replay of `Step` from the snapshot |

## Left out

- Norm rescaling (lines 601-602, 660-661, 666-667): square roots and floating point, with an unguarded division by a zero norm. The composed sums stop before it.
- `WeightLearningNetwork` (lines 398-420): its outputs are the input weights `alphas`.
- CLIP encodings and cosine similarities (lines 357-393): the similarity scores are inputs.
- VAE, UNet, noise sampling, losses, AdamW and the learning-rate scheduler (lines 673-737): in `Training.StepInputs` they become the per-step composed rows, the explanation row and an arbitrary row-wise update of the table before the restore. The optimiser at lines 506-512 holds only the networks' parameters, so the real update is the identity, which spares the placeholders.
- NLTK part-of-speech tagging and tokenizer decoding: oracles `posTag` and `decode`. Being pure functions of fixed candidate ids, the mask they give is the same at every step.
- Reading the attribute word list, image files and checkpoints, `torch.save`, argparse (lines 64-235, 615-621): input/output.
- Accelerate: distribution, mixed precision, and gradient accumulation other than one synchronised step per batch (`gradient_accumulation_steps = 1`, the default at line 117). Steps per epoch equal the loader length.
- PyRuntime.CeilDiv: computes the exact integer ceiling. The script takes `math.ceil` of the correctly rounded float quotient, whose ceiling equals the exact one while `|a| < 2^53`; beyond that (for example `2**60 / 3`) they can differ.
- Floating point: weights, scores and embedding rows are real numbers, so float32 rounding and the order of summation inside `torch.matmul` are not modelled. `EmbeddingComposer.CombineAtPermutation` and `EmbeddingComposer.FullExplanationIsObjectEmbedding` hold in exact arithmetic; the script's float32 sums can differ from each other by rounding.
- Shuffling and random flips: they do not affect which rows or counts are involved.
- Training.Train: starts at `first_epoch = 0` (line 586) and does not model resuming.
- Ranking.ArgsortDescending: an algorithm that meets the sort specification, not `torch.sort` itself. The model takes the sort result as any order meeting that specification.
- Dataset.LoaderLength: the batch count of a shuffling `DataLoader` with `drop_last` false, following the checks of `RandomSampler` and `BatchSampler` in that order; the library code itself is not part of this model.
- Training.Step: when the attribute word count is a multiple `k >= 2` of `word_size`, the attribute network's view gives a `k x word_size` matrix, and the script's later indexing and matmul work on shapes the model does not follow; the model proceeds as for `k = 1`. With no attribute words, the script fails earlier, at line 620, outside the step.
- Training.RunEpoch: inherits the gap named for `Training.Step` when the attribute word count is a multiple `k >= 2` of `word_size`.
- Training.Train: inherits the gap named for `Training.Step` when the attribute word count is a multiple `k >= 2` of `word_size`.
- Training.RunEpochs: inherits the gap named for `Training.Step` when the attribute word count is a multiple `k >= 2` of `word_size`.
- Dataset.DatasetLength: has no contract of its own. `Dataset.EveryImageVisitedRepeatsTimes` states what it means for the training split.

=== FILE: candidates.dfy ===
/** Per-step selection over the two candidate vocabularies: the noun mask
    applied to the object weights, the explanation subset of the `K`
    largest masked object weights, and the `M` largest attribute weights.
    Weights (the weighting networks' sigmoid outputs) are inputs, and so is
    the index half of each unstable descending `torch.sort`. */
module CandidateFilter {
  import opened PyRuntime
  import opened Ranking

  function Abs(x: real): real { if x < 0.0 then -x else x }

  /** `w.abs()`, the sort key of both selections. */
  function Magnitudes(w: seq<real>): (r: seq<real>)
    ensures |r| == |w| && forall i :: 0 <= i < |w| ==> r[i] >= 0.0 && (r[i] == w[i] || r[i] == -w[i])
  {
    seq(|w|, i requires 0 <= i < |w| => Abs(w[i]))
  }

  /** An NLTK part-of-speech tag of the noun family: `tag.startswith('NN')`. */
  predicate IsNounTag(tag: string) {
    "NN" <= tag
  }

  /** The noun test applied to one candidate: decode the token id to a word,
      tag the word on its own, test the tag. Decoding and tagging are
      oracles. */
  predicate IsNounCandidate(id: int, decode: int -> string, posTag: string -> string) {
    IsNounTag(posTag(decode(id)))
  }

  predicate IsZeroOne(mask: seq<real>) {
    forall i :: 0 <= i < |mask| ==> mask[i] == 0.0 || mask[i] == 1.0
  }

  /** `mask`: one entry per position below `vocabulary_size`, 1 for a
      noun-tagged candidate and 0 otherwise. Reading a candidate past the
      end of the vocabulary index list raises IndexError. */
  function NounMask(candidates: seq<int>, vocabularySize: nat, decode: int -> string, posTag: string -> string)
    : (r: Result<seq<real>>)
    ensures r.Ok? <==> vocabularySize <= |candidates|
    ensures r.Ok? ==> |r.value| == vocabularySize && IsZeroOne(r.value)
    ensures r.Ok? ==> forall i :: 0 <= i < vocabularySize ==>
                        (r.value[i] == 1.0 <==> IsNounCandidate(candidates[i], decode, posTag))
  {
    if vocabularySize > |candidates| then Err(IndexOutOfRange)
    else Ok(seq(vocabularySize, i requires 0 <= i < vocabularySize =>
                 if IsNounCandidate(candidates[i], decode, posTag) then 1.0 else 0.0))
  }

  /** `masked_alphas_obj = alphas_obj * mask`: with a 0/1 mask, the raw
      weight where the mask is 1 and 0 where it is 0. */
  function MaskWeights(alphas: seq<real>, mask: seq<real>): (r: seq<real>)
    requires |alphas| == |mask|
    ensures |r| == |alphas|
    ensures IsZeroOne(mask) ==> forall i :: 0 <= i < |r| ==> r[i] == (if mask[i] == 1.0 then alphas[i] else 0.0)
  {
    seq(|alphas|, i requires 0 <= i < |alphas| => alphas[i] * mask[i])
  }

  /** The masked object weights are the raw weights at noun candidates and 0
      elsewhere. */
  lemma MaskedWeightsKeepOnlyNouns(alphas: seq<real>, candidates: seq<int>, decode: int -> string,
                                   posTag: string -> string)
    requires |alphas| <= |candidates|
    ensures NounMask(candidates, |alphas|, decode, posTag).Ok?
    ensures var masked := MaskWeights(alphas, NounMask(candidates, |alphas|, decode, posTag).value);
            forall i :: 0 <= i < |alphas| ==>
              masked[i] == (if IsNounCandidate(candidates[i], decode, posTag) then alphas[i] else 0.0)
  {
  }

  /** The positions below `n` where the mask is 1, in increasing order. */
  function NounPositions(mask: seq<real>, n: nat): (r: seq<int>)
    requires n <= |mask|
    ensures Distinct(r) && InRange(r, n)
    ensures forall i :: 0 <= i < n ==> (i in r <==> mask[i] == 1.0)
  {
    if n == 0 then []
    else NounPositions(mask, n - 1) + (if mask[n - 1] == 1.0 then [n - 1] else [])
  }

  /** `[sorted_obj[i] for i in range(K)]`: the positions of the `K` largest
      masked weights by magnitude. Asking for more than there are raises
      IndexError; a negative `K` gives no positions. */
  function ExplanationSubset(masked: seq<real>, order: seq<int>, k: int): (r: Result<seq<int>>)
    requires IsDescendingArgsort(Magnitudes(masked), order)
    ensures r.Ok? <==> k <= |masked|
    ensures r.Err? ==> r.error == IndexOutOfRange
    ensures r.Ok? ==> |r.value| == Max(k, 0) && IsTopSelection(Magnitudes(masked), r.value)
  {
    if k > |masked| then Err(IndexOutOfRange)
    else
      PrefixIsTopSelection(Magnitudes(masked), order, Max(k, 0));
      Ok(order[..Max(k, 0)])
  }

  /** `sorted_attr[:num_attr_take]`: the positions of the `M` largest
      attribute weights by magnitude, clipped by the slice to the word
      list's size. */
  function AttributeSubset(alphas: seq<real>, order: seq<int>, m: int): (r: seq<int>)
    requires IsDescendingArgsort(Magnitudes(alphas), order)
    ensures m >= 0 ==> |r| == Min(m, |alphas|)
    ensures m < 0 ==> |r| == Max(|alphas| + m, 0)
    ensures IsTopSelection(Magnitudes(alphas), r)
  {
    var n := SliceStop(m, |alphas|);
    PrefixIsTopSelection(Magnitudes(alphas), order, n);
    order[..n]
  }

  /** When every noun candidate has a positive weight and there are at least
      `K` nouns, the explanation subset holds nouns only: a masked-out
      candidate has magnitude 0 and would be outranked by a noun left out. */
  lemma ExplanationSubsetIsNouns(alphas: seq<real>, mask: seq<real>, order: seq<int>, k: nat)
    requires |alphas| == |mask| && IsZeroOne(mask)
    requires forall i :: 0 <= i < |mask| && mask[i] == 1.0 ==> alphas[i] > 0.0
    requires IsDescendingArgsort(Magnitudes(MaskWeights(alphas, mask)), order)
    requires k <= |NounPositions(mask, |mask|)|
    ensures ExplanationSubset(MaskWeights(alphas, mask), order, k).Ok?
    ensures var sel := ExplanationSubset(MaskWeights(alphas, mask), order, k).value;
            forall p :: 0 <= p < |sel| ==> mask[sel[p]] == 1.0
  {
    var nouns := NounPositions(mask, |mask|);
    DistinctElementsCard(nouns);
    BelowCard(|mask|);
    SubsetCard(Elements(nouns), Below(|mask|));
    var masked := MaskWeights(alphas, mask);
    var keys := Magnitudes(masked);
    var sel := ExplanationSubset(masked, order, k).value;
    forall p | 0 <= p < |sel|
      ensures mask[sel[p]] == 1.0
    {
      if mask[sel[p]] != 1.0 {
        assert keys[sel[p]] == 0.0;
        forall x | x in Elements(nouns)
          ensures x in Elements(sel) - {sel[p]}
        {
          assert keys[x] > 0.0;
        }
        DistinctElementsCard(sel);
        SubsetCard(Elements(nouns), Elements(sel) - {sel[p]});
        assert false;
      }
    }
  }
}

=== FILE: composer.dfy ===
/** The weighted sums that build the two composed embeddings and the
    explanation embedding, before the rescaling to the table's average row
    norm. A matrix is a sequence of rows of a common width `d`; a weighted
    sum is computed coordinate by coordinate. */
module EmbeddingComposer {
  import opened Ranking
  import opened CandidateFilter

  predicate IsMatrix(rows: seq<seq<real>>, d: nat) {
    forall i :: 0 <= i < |rows| ==> |rows[i]| == d
  }

  /** Weights and rows that `torch.matmul` accepts together. */
  predicate Conformable(w: seq<real>, rows: seq<seq<real>>, d: nat) {
    |rows| == |w| && IsMatrix(rows, d)
  }

  /** Coordinate `c` of the sum, over the listed positions `i`, of
      `w[i] * rows[i]`. */
  function CombineAt(w: seq<real>, rows: seq<seq<real>>, d: nat, idx: seq<int>, c: nat): real
    requires Conformable(w, rows, d) && InRange(idx, |w|) && c < d
    decreases |idx|
  {
    if |idx| == 0 then 0.0
    else CombineAt(w, rows, d, idx[..|idx| - 1], c) + w[idx[|idx| - 1]] * rows[idx[|idx| - 1]][c]
  }

  /** The weighted sum over the listed positions `idx`, coordinate by
      coordinate. Positions whose weight is zero contribute nothing: with
      zero weight at every listed position the sum is the zero vector. */
  function GatherSum(w: seq<real>, rows: seq<seq<real>>, d: nat, idx: seq<int>): (r: seq<real>)
    requires Conformable(w, rows, d) && InRange(idx, |w|)
    ensures |r| == d
    ensures (forall p :: 0 <= p < |idx| ==> w[idx[p]] == 0.0) ==> forall c :: 0 <= c < d ==> r[c] == 0.0
  {
    ZeroWeightsSumToZero(w, rows, d, idx);
    seq(d, c requires 0 <= c < d => CombineAt(w, rows, d, idx, c))
  }

  lemma ZeroWeightsSumToZero(w: seq<real>, rows: seq<seq<real>>, d: nat, idx: seq<int>)
    requires Conformable(w, rows, d) && InRange(idx, |w|)
    ensures (forall p :: 0 <= p < |idx| ==> w[idx[p]] == 0.0) ==>
              forall c :: 0 <= c < d ==> CombineAt(w, rows, d, idx, c) == 0.0
  {
    if forall p :: 0 <= p < |idx| ==> w[idx[p]] == 0.0 {
      forall c | 0 <= c < d
        ensures CombineAt(w, rows, d, idx, c) == 0.0
      {
        CombineAtZero(w, rows, d, idx, c);
      }
    }
  }

  /** A sum over positions of zero weight is zero. */
  lemma {:induction false} CombineAtZero(w: seq<real>, rows: seq<seq<real>>, d: nat, idx: seq<int>, c: nat)
    requires Conformable(w, rows, d) && InRange(idx, |w|) && c < d
    requires forall p :: 0 <= p < |idx| ==> w[idx[p]] == 0.0
    ensures CombineAt(w, rows, d, idx, c) == 0.0
    decreases |idx|
  {
    if |idx| > 0 {
      CombineAtZero(w, rows, d, idx[..|idx| - 1], c);
    }
  }

  function Iota(n: nat): (r: seq<int>)
    ensures |r| == n && forall i :: 0 <= i < n ==> r[i] == i
  {
    seq(n, i requires 0 <= i < n => i)
  }

  /** `s[idx]` for a list of positions. */
  function Gather<T>(s: seq<T>, idx: seq<int>): (r: seq<T>)
    requires InRange(idx, |s|)
    ensures |r| == |idx| && forall p :: 0 <= p < |idx| ==> r[p] == s[idx[p]]
  {
    seq(|idx|, p requires 0 <= p < |idx| => s[idx[p]])
  }

  /** `torch.matmul(w, rows)`: every position, in order. With all weights
      zero it is the zero vector. */
  function WeightedSum(w: seq<real>, rows: seq<seq<real>>, d: nat): (r: seq<real>)
    requires Conformable(w, rows, d)
    ensures |r| == d
    ensures (forall i :: 0 <= i < |w| ==> w[i] == 0.0) ==> forall c :: 0 <= c < d ==> r[c] == 0.0
  {
    GatherSum(w, rows, d, Iota(|w|))
  }

  /** `torch.matmul(w[idx], rows[idx])`, gathering first and then summing
      the gathered rows in order, is the sum over the listed positions of
      the original weights and rows. */
  lemma GatheredMatmul(w: seq<real>, rows: seq<seq<real>>, d: nat, idx: seq<int>)
    requires Conformable(w, rows, d) && InRange(idx, |w|)
    ensures Conformable(Gather(w, idx), Gather(rows, idx), d)
    ensures WeightedSum(Gather(w, idx), Gather(rows, idx), d) == GatherSum(w, rows, d, idx)
  {
    var gw, gr := Gather(w, idx), Gather(rows, idx);
    assert idx[..|idx|] == idx;
    forall c | 0 <= c < d
      ensures CombineAt(gw, gr, d, Iota(|idx|), c) == CombineAt(w, rows, d, idx, c)
    {
      GatheredPrefix(w, rows, d, idx, |idx|, c);
    }
  }

  lemma {:induction false} GatheredPrefix(w: seq<real>, rows: seq<seq<real>>, d: nat, idx: seq<int>, k: nat,
                                          c: nat)
    requires Conformable(w, rows, d) && InRange(idx, |w|) && k <= |idx| && c < d
    ensures Conformable(Gather(w, idx), Gather(rows, idx), d)
    ensures CombineAt(Gather(w, idx), Gather(rows, idx), d, Iota(k), c) == CombineAt(w, rows, d, idx[..k], c)
  {
    if k > 0 {
      GatheredPrefix(w, rows, d, idx, k - 1, c);
      IotaStep(Gather(w, idx), Gather(rows, idx), d, k, c);
      PrefixStep(w, rows, d, idx, k, c);
      GatheredTerm(w, rows, d, idx, k - 1, c);
    }
  }

  /** Summing over the first `k` listed positions is summing over the first
      `k - 1` and adding the `k`-th. */
  lemma PrefixStep(w: seq<real>, rows: seq<seq<real>>, d: nat, idx: seq<int>, k: nat, c: nat)
    requires Conformable(w, rows, d) && InRange(idx, |w|) && 0 < k <= |idx| && c < d
    ensures CombineAt(w, rows, d, idx[..k], c)
            == CombineAt(w, rows, d, idx[..k - 1], c) + CombineAt(w, rows, d, [idx[k - 1]], c)
  {
    assert idx[..k] == idx[..k - 1] + [idx[k - 1]];
    CombineAtAppend(w, rows, d, idx[..k - 1], [idx[k - 1]], c);
  }

  /** The `p`-th gathered term is the term of position `idx[p]`. */
  lemma GatheredTerm(w: seq<real>, rows: seq<seq<real>>, d: nat, idx: seq<int>, p: nat, c: nat)
    requires Conformable(w, rows, d) && InRange(idx, |w|) && p < |idx| && c < d
    ensures Conformable(Gather(w, idx), Gather(rows, idx), d)
    ensures CombineAt(Gather(w, idx), Gather(rows, idx), d, [p], c) == CombineAt(w, rows, d, [idx[p]], c)
  {
    SingleTerm(Gather(w, idx), Gather(rows, idx), d, p, c);
    SingleTerm(w, rows, d, idx[p], c);
  }

  /** The unnormalised object embedding (line 659). When no candidate is a
      noun every masked weight is zero, and so is this vector, whose norm
      the rescaling at line 660 then divides by. */
  function ObjectEmbedding(masked: seq<real>, vocabulary: seq<seq<real>>, d: nat): (r: seq<real>)
    requires Conformable(masked, vocabulary, d)
    ensures |r| == d
    ensures (forall i :: 0 <= i < |masked| ==> masked[i] == 0.0) ==> forall c :: 0 <= c < d ==> r[c] == 0.0
  {
    WeightedSum(masked, vocabulary, d)
  }

  /** The unnormalised explanation embedding over the explanation subset
      (lines 723-725): the masked weights and vocabulary rows at `top`,
      gathered and multiplied. It is the sum over the listed positions. */
  function TopEmbedding(masked: seq<real>, vocabulary: seq<seq<real>>, d: nat, top: seq<int>): (r: seq<real>)
    requires Conformable(masked, vocabulary, d) && InRange(top, |masked|)
    ensures r == GatherSum(masked, vocabulary, d, top)
  {
    GatheredMatmul(masked, vocabulary, d, top);
    WeightedSum(Gather(masked, top), Gather(vocabulary, top), d)
  }

  /** The unnormalised attribute embedding over the top-`M` attribute
      positions (line 665), gathered and multiplied. It is the sum over the
      selected positions. */
  function AttributeEmbedding(alphas: seq<real>, words: seq<seq<real>>, d: nat, order: seq<int>, m: int)
    : (r: seq<real>)
    requires Conformable(alphas, words, d)
    requires IsDescendingArgsort(Magnitudes(alphas), order)
    ensures r == GatherSum(alphas, words, d, AttributeSubset(alphas, order, m))
  {
    var sel := AttributeSubset(alphas, order, m);
    GatheredMatmul(alphas, words, d, sel);
    WeightedSum(Gather(alphas, sel), Gather(words, sel), d)
  }

  /** A gathered sum reads the weights and rows at the listed positions and
      nothing else. */
  lemma {:induction false} CombineAtReadsOnlyListed(w: seq<real>, rows: seq<seq<real>>, w': seq<real>,
                                                    rows': seq<seq<real>>, d: nat, idx: seq<int>, c: nat)
    requires Conformable(w, rows, d) && Conformable(w', rows', d) && |w| == |w'|
    requires InRange(idx, |w|) && c < d
    requires forall p :: 0 <= p < |idx| ==> w[idx[p]] == w'[idx[p]] && rows[idx[p]] == rows'[idx[p]]
    ensures CombineAt(w, rows, d, idx, c) == CombineAt(w', rows', d, idx, c)
    decreases |idx|
  {
    if |idx| > 0 {
      CombineAtReadsOnlyListed(w, rows, w', rows', d, idx[..|idx| - 1], c);
    }
  }

  /** The attribute embedding ranges only over the selected attribute
      words: any weights and rows that agree with the originals on the
      selected positions give the same sum. */
  lemma AttributeEmbeddingIgnoresUnselected(alphas: seq<real>, words: seq<seq<real>>, d: nat, order: seq<int>,
                                            m: int, alphas': seq<real>, words': seq<seq<real>>)
    requires Conformable(alphas, words, d) && Conformable(alphas', words', d) && |alphas'| == |alphas|
    requires IsDescendingArgsort(Magnitudes(alphas), order)
    requires forall i :: i in AttributeSubset(alphas, order, m) ==> alphas'[i] == alphas[i] && words'[i] == words[i]
    ensures GatherSum(alphas', words', d, AttributeSubset(alphas, order, m)) == AttributeEmbedding(alphas, words, d, order, m)
  {
    var sel := AttributeSubset(alphas, order, m);
    forall c | 0 <= c < d
      ensures CombineAt(alphas', words', d, sel, c) == CombineAt(alphas, words, d, sel, c)
    {
      CombineAtReadsOnlyListed(alphas', words', alphas, words, d, sel, c);
    }
  }

  /** Masked-out candidates contribute nothing: the object embedding equals
      the sum of the raw weights over the noun positions alone. */
  lemma MaskedOutContributeNothing(alphas: seq<real>, mask: seq<real>, vocabulary: seq<seq<real>>, d: nat)
    requires |alphas| == |mask| && IsZeroOne(mask) && Conformable(alphas, vocabulary, d)
    ensures ObjectEmbedding(MaskWeights(alphas, mask), vocabulary, d)
            == GatherSum(alphas, vocabulary, d, NounPositions(mask, |mask|))
  {
    var masked := MaskWeights(alphas, mask);
    forall c | 0 <= c < d
      ensures CombineAt(masked, vocabulary, d, Iota(|masked|), c)
              == CombineAt(alphas, vocabulary, d, NounPositions(mask, |mask|), c)
    {
      MaskedPrefix(alphas, mask, masked, vocabulary, d, |mask|, c);
    }
  }

  /** The prefix form of the lemma above, over any weights that equal the
      raw ones at noun positions and 0 elsewhere. */
  lemma {:induction false} MaskedPrefix(alphas: seq<real>, mask: seq<real>, masked: seq<real>,
                                        vocabulary: seq<seq<real>>, d: nat, n: nat, c: nat)
    requires |alphas| == |mask| == |masked| && Conformable(alphas, vocabulary, d)
    requires forall i :: 0 <= i < |masked| ==> masked[i] == (if mask[i] == 1.0 then alphas[i] else 0.0)
    requires n <= |mask| && c < d
    ensures CombineAt(masked, vocabulary, d, Iota(n), c) == CombineAt(alphas, vocabulary, d, NounPositions(mask, n), c)
  {
    if n > 0 {
      MaskedPrefix(alphas, mask, masked, vocabulary, d, n - 1, c);
      IotaStep(masked, vocabulary, d, n, c);
      NounStep(alphas, mask, masked, vocabulary, d, n, c);
    }
  }

  /** Summing over `0 .. n - 1` is summing over `0 .. n - 2` and adding the
      last term. */
  lemma IotaStep(w: seq<real>, rows: seq<seq<real>>, d: nat, n: nat, c: nat)
    requires Conformable(w, rows, d) && 0 < n <= |w| && c < d
    ensures CombineAt(w, rows, d, Iota(n), c) == CombineAt(w, rows, d, Iota(n - 1), c) + CombineAt(w, rows, d, [n - 1], c)
  {
    assert Iota(n) == Iota(n - 1) + [n - 1];
    CombineAtAppend(w, rows, d, Iota(n - 1), [n - 1], c);
  }

  /** Extending the noun positions by one candidate adds that candidate's
      masked term: its raw term for a noun, 0 otherwise. */
  lemma NounStep(alphas: seq<real>, mask: seq<real>, masked: seq<real>, vocabulary: seq<seq<real>>, d: nat,
                 n: nat, c: nat)
    requires |alphas| == |mask| == |masked| && Conformable(alphas, vocabulary, d)
    requires forall i :: 0 <= i < |masked| ==> masked[i] == (if mask[i] == 1.0 then alphas[i] else 0.0)
    requires 0 < n <= |mask| && c < d
    ensures CombineAt(alphas, vocabulary, d, NounPositions(mask, n), c)
            == CombineAt(alphas, vocabulary, d, NounPositions(mask, n - 1), c) + CombineAt(masked, vocabulary, d, [n - 1], c)
  {
    var nouns := NounPositions(mask, n - 1);
    if mask[n - 1] == 1.0 {
      assert NounPositions(mask, n) == nouns + [n - 1];
      CombineAtAppend(alphas, vocabulary, d, nouns, [n - 1], c);
      CombineAtReadsOnlyListed(masked, vocabulary, alphas, vocabulary, d, [n - 1], c);
    } else {
      SingleTerm(masked, vocabulary, d, n - 1, c);
      assert NounPositions(mask, n) == nouns;
    }
  }

  /** Summing over a concatenation of index lists is summing over each. */
  lemma {:induction false} CombineAtAppend(w: seq<real>, rows: seq<seq<real>>, d: nat, a: seq<int>, b: seq<int>,
                                           c: nat)
    requires Conformable(w, rows, d) && InRange(a, |w|) && InRange(b, |w|) && c < d
    ensures InRange(a + b, |w|)
    ensures CombineAt(w, rows, d, a + b, c) == CombineAt(w, rows, d, a, c) + CombineAt(w, rows, d, b, c)
    decreases |b|
  {
    assert InRange(a + b, |w|);
    if |b| == 0 {
      assert a + b == a;
    } else {
      var b' := b[..|b| - 1];
      CombineAtAppend(w, rows, d, a, b', c);
      assert (a + b)[..|a + b| - 1] == a + b';
    }
  }

  /** Taking one listed position out of a gathered sum subtracts its term. */
  lemma CombineAtRemove(w: seq<real>, rows: seq<seq<real>>, d: nat, idx: seq<int>, j: nat, c: nat)
    requires Conformable(w, rows, d) && InRange(idx, |w|) && j < |idx| && c < d
    ensures InRange(idx[..j] + idx[j + 1..], |w|)
    ensures CombineAt(w, rows, d, idx, c)
            == CombineAt(w, rows, d, idx[..j] + idx[j + 1..], c) + CombineAt(w, rows, d, [idx[j]], c)
  {
    var x, a, b := idx[j], idx[..j], idx[j + 1..];
    assert InRange(a, |w|) && InRange(b, |w|) && InRange([x], |w|);
    var ca, cb, cx := CombineAt(w, rows, d, a, c), CombineAt(w, rows, d, b, c), CombineAt(w, rows, d, [x], c);
    assert CombineAt(w, rows, d, a + [x], c) == ca + cx by {
      CombineAtAppend(w, rows, d, a, [x], c);
    }
    assert CombineAt(w, rows, d, idx, c) == ca + cx + cb by {
      assert idx == a + [x] + b;
      CombineAtAppend(w, rows, d, a + [x], b, c);
    }
    assert CombineAt(w, rows, d, a + b, c) == ca + cb by {
      CombineAtAppend(w, rows, d, a, b, c);
    }
  }

  lemma SingleTerm(w: seq<real>, rows: seq<seq<real>>, d: nat, x: int, c: nat)
    requires Conformable(w, rows, d) && 0 <= x < |w| && c < d
    ensures CombineAt(w, rows, d, [x], c) == w[x] * rows[x][c]
  {
    assert [x][..0] == [];
  }

  /** Removing the largest position from a permutation of the positions
      below `n` leaves a permutation of those below `n - 1`. */
  lemma RemoveLargest(idx: seq<int>, n: nat, j: nat)
    requires IsIndexPermutation(idx, n) && j < n && idx[j] == n - 1
    ensures IsIndexPermutation(idx[..j] + idx[j + 1..], n - 1)
  {
    var rest := idx[..j] + idx[j + 1..];
    forall p | 0 <= p < |rest|
      ensures rest[p] == idx[if p < j then p else p + 1]
    {
    }
  }

  /** The order of the summands does not matter: summing over any
      permutation of the positions below `n` is summing over `0 .. n - 1`. */
  lemma {:induction false} CombineAtPermutation(w: seq<real>, rows: seq<seq<real>>, d: nat, idx: seq<int>,
                                                n: nat, c: nat)
    requires Conformable(w, rows, d) && n <= |w| && c < d
    requires IsIndexPermutation(idx, n)
    ensures CombineAt(w, rows, d, idx, c) == CombineAt(w, rows, d, Iota(n), c)
  {
    if n > 0 {
      PermutationCovers(idx, n, n - 1);
      var j :| 0 <= j < |idx| && idx[j] == n - 1;
      RemoveLargest(idx, n, j);
      CombineAtPermutation(w, rows, d, idx[..j] + idx[j + 1..], n - 1, c);
      CombineAtRemove(w, rows, d, idx, j, c);
      IotaStep(w, rows, d, n, c);
    }
  }

  /** With `K` equal to the vocabulary size, the explanation subset is a
      permutation of all candidates, so in exact arithmetic the explanation
      embedding equals the object embedding; in float32 the two sums differ
      by rounding, since they add the same terms in different orders. */
  lemma FullExplanationIsObjectEmbedding(masked: seq<real>, vocabulary: seq<seq<real>>, d: nat, order: seq<int>)
    requires Conformable(masked, vocabulary, d)
    requires IsDescendingArgsort(Magnitudes(masked), order)
    ensures ExplanationSubset(masked, order, |masked|).Ok?
    ensures TopEmbedding(masked, vocabulary, d, ExplanationSubset(masked, order, |masked|).value)
            == ObjectEmbedding(masked, vocabulary, d)
  {
    var top := ExplanationSubset(masked, order, |masked|).value;
    assert top == order;
    forall c | 0 <= c < d
      ensures CombineAt(masked, vocabulary, d, top, c) == CombineAt(masked, vocabulary, d, Iota(|masked|), c)
    {
      CombineAtPermutation(masked, vocabulary, d, top, |masked|, c);
    }
  }
}

=== FILE: dataset.dfy ===
/** Integer bookkeeping of the training dataset (`CUSDataset`): its length,
    the image an item index reads, the centre-crop box, and the number of
    batches the data loader yields over it. Image decoding, resizing,
    flipping and tokenisation are not modelled. */
module Dataset {
  import opened PyRuntime

  /** `_length`: the image count, times `repeats` for the training split. */
  function DatasetLength(numImages: nat, repeats: int, isTrain: bool): int {
    if isTrain then numImages * repeats else numImages
  }

  /** The image read for item `i`: `image_paths[i % num_images]`. Python's
      `%` by a positive modulus agrees with Dafny's; by zero it raises. */
  function ImageIndex(i: int, numImages: nat): (r: Result<nat>)
    ensures r.Ok? <==> numImages > 0
    ensures r.Ok? ==> r.value < numImages && (i - r.value) % numImages == 0
  {
    if numImages == 0 then Err(ZeroDivision)
    else
      DivMod(i, numImages);
      Ok(i % numImages)
  }

  lemma DivMod(a: int, n: nat)
    requires n > 0
    ensures (a - a % n) % n == 0
  {
    var q := a / n;
    assert a - a % n == q * n;
    ModOfBlock(q, n, 0);
  }

  /** `q * n + m` leaves remainder `m` when `m` lies in `[0, n)`. */
  lemma ModOfBlock(q: int, n: nat, m: int)
    requires n > 0 && 0 <= m < n
    ensures (q * n + m) % n == m
    ensures (q * n + m) / n == q
  {
    var a := q * n + m;
    var q', m' := a / n, a % n;
    assert a == q' * n + m';
    assert (q - q') * n == m' - m;
    if q < q' {
      MulMonotone(q - q', -1, n);
    } else if q > q' {
      MulMonotone(1, q - q', n);
    }
  }

  /** How many items among `0 .. len - 1` read image `j`. */
  function Visits(j: nat, numImages: nat, len: nat): nat
    requires numImages > 0
  {
    if len == 0 then 0
    else Visits(j, numImages, len - 1) + (if ImageIndex(len - 1, numImages) == Ok(j) then 1 else 0)
  }

  /** One pass over the training split reads every image exactly `repeats`
      times. */
  lemma {:induction false} EveryImageVisitedRepeatsTimes(numImages: nat, repeats: nat, j: nat)
    requires numImages > 0 && j < numImages
    ensures DatasetLength(numImages, repeats, true) >= 0
    ensures Visits(j, numImages, DatasetLength(numImages, repeats, true)) == repeats
  {
    if repeats > 0 {
      EveryImageVisitedRepeatsTimes(numImages, repeats - 1, j);
      var base: nat := DatasetLength(numImages, repeats - 1, true);
      NextBlock(numImages, repeats);
      BlockVisits(numImages, repeats - 1, base, j, numImages);
    }
  }

  lemma NextBlock(n: nat, r: nat)
    requires r > 0
    ensures n * (r - 1) == (r - 1) * n
    ensures n * r == (r - 1) * n + n
  {
  }

  /** Within one block of `numImages` consecutive items, image `j` is read
      once, at offset `j`. */
  lemma {:induction false} BlockVisits(numImages: nat, block: nat, base: nat, j: nat, m: nat)
    requires numImages > 0 && j < numImages && m <= numImages
    requires base == block * numImages
    ensures Visits(j, numImages, base + m) == Visits(j, numImages, base) + (if j < m then 1 else 0)
  {
    if m > 0 {
      BlockVisits(numImages, block, base, j, m - 1);
      ModOfBlock(block, numImages, m - 1);
      assert ImageIndex(base + m - 1, numImages) == Ok(m - 1);
    }
  }

  /** Rows `top .. bottom - 1` and columns `left .. right - 1` of an image. */
  datatype Box = Box(top: int, bottom: int, left: int, right: int)

  /** The slice taken of an `h` by `w` image: with `center_crop`, the
      largest centred square; otherwise the whole image. */
  function CropBox(h: nat, w: nat, centerCrop: bool): (b: Box)
    ensures 0 <= b.top <= b.bottom <= h && 0 <= b.left <= b.right <= w
    ensures centerCrop ==> b.bottom - b.top == Min(h, w) && b.right - b.left == Min(h, w)
    ensures centerCrop ==> b.top <= h - b.bottom <= b.top + 1 && b.left <= w - b.right <= b.left + 1
    ensures !centerCrop ==> b.bottom - b.top == h && b.right - b.left == w
  {
    if centerCrop then
      var crop := Min(h, w);
      CenteredSpan(h, crop);
      CenteredSpan(w, crop);
      Box((h - crop) / 2, (h + crop) / 2, (w - crop) / 2, (w + crop) / 2)
    else Box(0, h, 0, w)
  }

  /** `(n - c) // 2 : (n + c) // 2` spans exactly `c` positions inside
      `[0, n)`, with margins that differ by at most one. */
  lemma CenteredSpan(n: nat, c: nat)
    requires c <= n
    ensures 0 <= (n - c) / 2 <= (n + c) / 2 <= n
    ensures (n + c) / 2 - (n - c) / 2 == c
    ensures (n - c) / 2 <= n - (n + c) / 2 <= (n - c) / 2 + 1
  {
    var lo := (n - c) / 2;
    ModOfBlock(lo + c, 2, (n - c) % 2);
  }

  /** `len(DataLoader(dataset, batch_size, shuffle=True))` with
      `drop_last=False`. Shuffling builds a random sampler first, which
      refuses a dataset without samples (and `len` itself refuses a negative
      length); the batch sampler then refuses a non-positive batch size.
      Both are ValueErrors. Otherwise the count is the number of batches,
      the last one possibly short. */
  function LoaderLength(datasetLen: int, batchSize: int): (r: Result<nat>)
    ensures r.Ok? <==> datasetLen > 0 && batchSize > 0
    ensures datasetLen <= 0 ==> r == Err(EmptySampler)
    ensures datasetLen > 0 && batchSize <= 0 ==> r == Err(NonPositiveBatch)
    ensures r.Ok? ==> r.value >= 1 && (r.value - 1) * batchSize < datasetLen <= r.value * batchSize
  {
    if datasetLen <= 0 then Err(EmptySampler)
    else if batchSize <= 0 then Err(NonPositiveBatch)
    else
      var c := CeilDiv(datasetLen, batchSize).value;
      assert c >= 1 by {
        if c < 1 { MulMonotone(c, 0, batchSize); }
      }
      Ok(c)
  }
}

=== FILE: pyruntime.dfy ===
/** The slice of Python semantics the training script leans on: list and
    tensor indexing with wrap-around of negative indices, the length of a
    `[:stop]` slice, and `math.ceil(a / b)` on integers. Exceptions the
    interpreter would raise become `Err` values. */
module PyRuntime {

  /** The exceptions the modelled code can raise. */
  datatype Error =
    | ZeroDivision      // ZeroDivisionError from `/` or `%` by zero
    | IndexOutOfRange   // IndexError from a list or tensor index
    | EmptySampler      // ValueError: a shuffling loader needs a positive number of samples
    | NonPositiveBatch  // ValueError: a data loader needs a positive batch size
    | ShapeMismatch     // RuntimeError: a tensor cannot be viewed in the asked-for shape

  datatype Result<T> = Ok(value: T) | Err(error: Error)

  datatype Option<T> = None | Some(value: T)

  function Min(a: int, b: int): int { if a <= b then a else b }

  function Max(a: int, b: int): int { if a >= b then a else b }

  /** The position that Python index `i` addresses in a sequence of length
      `n`: non-negative indices count from the front, negative ones from the
      back, anything else raises IndexError. */
  function Wrap(i: int, n: nat): (r: Result<nat>)
    ensures r.Ok? <==> -(n as int) <= i < n
    ensures r.Ok? ==> r.value < n && (r.value == i || r.value == i + n)
  {
    if 0 <= i < n then Ok(i)
    else if -(n as int) <= i < 0 then Ok(i + n)
    else Err(IndexOutOfRange)
  }

  /** Python's rule for `s[:stop]` on a sequence of length `n`: position `i`
      is kept when it lies before `stop`, or, for a negative `stop`, when its
      negative alias `i - n` does. */
  predicate KeptBySlice(i: int, n: nat, stop: int) {
    if stop >= 0 then i < stop else i - n < stop
  }

  /** Length of `s[:stop]` for a sequence of length `n`: the kept positions
      are exactly the first `r`. */
  function SliceStop(stop: int, n: nat): (r: nat)
    ensures r <= n
    ensures forall i :: 0 <= i < n ==> (i < r <==> KeptBySlice(i, n, stop))
  {
    if stop >= 0 then Min(stop, n) else Max(n + stop, 0)
  }

  /** `t.view(-1, cols)` on a tensor of `count` elements: the inferred
      number of rows. PyTorch raises RuntimeError when `cols` is negative
      (including a second `-1`), when it is zero (the inferred size would be
      ambiguous), and when it does not divide `count`. */
  function ViewRows(count: nat, cols: int): (r: Result<nat>)
    ensures r.Ok? <==> cols > 0 && count % cols == 0
    ensures r.Err? ==> r.error == ShapeMismatch
    ensures r.Ok? ==> r.value * cols == count
  {
    if cols <= 0 || count % cols != 0 then Err(ShapeMismatch) else Ok(count / cols)
  }

  /** `math.ceil(a / b)` for a non-negative integer divisor, in exact
      arithmetic. Python's `a / b` is the correctly rounded quotient, whose
      ceiling equals the exact one while `|a| < 2^53`. Dafny's `/` on a
      positive divisor rounds down, as Python's `//` does. */
  function CeilDiv(a: int, b: nat): (r: Result<int>)
    ensures r.Ok? <==> b > 0
    ensures r.Ok? ==> (r.value - 1) * b < a <= r.value * b
  {
    if b == 0 then Err(ZeroDivision)
    else
      var q := (-a) / b;
      assert -a == q * b + (-a) % b;
      Ok(-q)
  }

  /** The ceiling is the only integer whose multiples of `b` bracket `a`. */
  lemma CeilUnique(a: int, b: nat, q: int, q': int)
    requires b > 0
    requires (q - 1) * b < a <= q * b
    requires (q' - 1) * b < a <= q' * b
    ensures q == q'
  {
    if q < q' {
      assert q * b <= (q' - 1) * b by { MulMonotone(q, q' - 1, b); }
    } else if q' < q {
      assert q' * b <= (q - 1) * b by { MulMonotone(q', q - 1, b); }
    }
  }

  lemma MulMonotone(x: int, y: int, b: nat)
    requires x <= y
    ensures x * b <= y * b
  {
    assert y * b - x * b == (y - x) * b;
  }
}

=== FILE: ranking.dfy ===
/** Index orders produced by `torch.sort(keys, descending=True)` and the
    prefixes the training script takes of them. The sort is not stable, so
    the model never fixes an order for ties: an order is any permutation of
    the key positions along which the keys do not increase. */
module Ranking {
  import opened PyRuntime

  predicate Distinct(s: seq<int>) {
    forall i, j :: 0 <= i < j < |s| ==> s[i] != s[j]
  }

  predicate InRange(s: seq<int>, n: int) {
    forall i :: 0 <= i < |s| ==> 0 <= s[i] < n
  }

  /** `order` lists every position below `n` exactly once. */
  predicate IsIndexPermutation(order: seq<int>, n: nat) {
    |order| == n && InRange(order, n) && Distinct(order)
  }

  /** Keys read along `order` never increase. */
  predicate DescendingAlong(keys: seq<real>, order: seq<int>)
    requires InRange(order, |keys|)
  {
    forall i, j :: 0 <= i < j < |order| ==> keys[order[i]] >= keys[order[j]]
  }

  /** What the index half of a descending `torch.sort` guarantees. */
  predicate IsDescendingArgsort(keys: seq<real>, order: seq<int>) {
    IsIndexPermutation(order, |keys|) && DescendingAlong(keys, order)
  }

  /** `sel` is a set of distinct positions of `keys`, listed with
      non-increasing keys, none of whose keys is beaten by a position left
      out of it. */
  predicate IsTopSelection(keys: seq<real>, sel: seq<int>) {
    && Distinct(sel)
    && InRange(sel, |keys|)
    && DescendingAlong(keys, sel)
    && forall p, j :: 0 <= p < |sel| && 0 <= j < |keys| && j !in sel ==> keys[sel[p]] >= keys[j]
  }

  function Elements(s: seq<int>): set<int> {
    set x | x in s
  }

  function Below(n: nat): (r: set<int>)
    ensures forall i :: i in r <==> 0 <= i < n
  {
    if n == 0 then {} else Below(n - 1) + {n - 1}
  }

  lemma {:induction false} DistinctElementsCard(s: seq<int>)
    requires Distinct(s)
    ensures |Elements(s)| == |s|
  {
    if |s| > 0 {
      var init := s[..|s| - 1];
      DistinctElementsCard(init);
      assert Elements(s) == Elements(init) + {s[|s| - 1]};
      assert s[|s| - 1] !in Elements(init);
    }
  }

  lemma {:induction false} BelowCard(n: nat)
    ensures |Below(n)| == n
  {
    if n > 0 {
      var smaller := Below(n - 1);
      BelowCard(n - 1);
      assert n - 1 !in smaller;
      assert |smaller + {n - 1}| == |smaller| + 1;
    }
  }

  lemma SubsetCard(a: set<int>, b: set<int>)
    requires a <= b
    ensures |a| <= |b|
  {
    assert b == a + (b - a);
  }

  /** Pigeonhole: a permutation of length `n` lists every position below `n`. */
  lemma PermutationCovers(order: seq<int>, n: nat, j: int)
    requires IsIndexPermutation(order, n)
    requires 0 <= j < n
    ensures j in order
  {
    if j !in order {
      DistinctElementsCard(order);
      BelowCard(n);
      assert Elements(order) <= Below(n) - {j};
      SubsetCard(Elements(order), Below(n) - {j});
      assert false;
    }
  }

  /** Any prefix of a descending argsort is a top selection of the keys. */
  lemma PrefixIsTopSelection(keys: seq<real>, order: seq<int>, k: nat)
    requires IsDescendingArgsort(keys, order)
    requires k <= |order|
    ensures IsTopSelection(keys, order[..k])
  {
    var sel := order[..k];
    forall p, j | 0 <= p < |sel| && 0 <= j < |keys| && j !in sel
      ensures keys[sel[p]] >= keys[j]
    {
      PermutationCovers(order, |keys|, j);
      var q :| 0 <= q < |order| && order[q] == j;
    }
  }

  /** Insert position `n` into a descending order of the positions below it. */
  function InsertDescending(keys: seq<real>, order: seq<int>, n: nat): (r: seq<int>)
    requires n < |keys|
    requires IsIndexPermutation(order, n) && DescendingAlong(keys, order)
    ensures IsIndexPermutation(r, n + 1) && DescendingAlong(keys, r)
  {
    var p := FirstBelow(keys, order, keys[n], 0);
    var r := seq(n + 1, i requires 0 <= i <= n => if i < p then order[i] else if i == p then n else order[i - 1]);
    InsertDescendingCorrect(keys, order, n, p, r);
    r
  }

  lemma InsertDescendingCorrect(keys: seq<real>, order: seq<int>, n: nat, p: nat, r: seq<int>)
    requires n < |keys|
    requires IsIndexPermutation(order, n) && DescendingAlong(keys, order)
    requires p <= n
    requires forall q :: 0 <= q < p ==> keys[order[q]] >= keys[n]
    requires p < n ==> keys[order[p]] < keys[n]
    requires |r| == n + 1
    requires forall i {:trigger r[i]} :: 0 <= i <= n ==> r[i] == (if i < p then order[i] else if i == p then n else order[i - 1])
    ensures IsIndexPermutation(r, n + 1) && DescendingAlong(keys, r)
  {
    assert InRange(r, n + 1);
    forall i, j | 0 <= i < j < |r|
      ensures r[i] != r[j] && keys[r[i]] >= keys[r[j]]
    {
      if j == p {
        assert r[i] == order[i];
      } else if i == p {
        assert r[j] == order[j - 1];
        assert keys[order[p]] >= keys[order[j - 1]] || p == j - 1;
      } else {
        var i' := if i < p then i else i - 1;
        var j' := if j < p then j else j - 1;
        assert r[i] == order[i'] && r[j] == order[j'] && i' < j';
      }
    }
  }

  /** The first position at or after `from` whose key is below `key`, or
      `|order|` when there is none. */
  function FirstBelow(keys: seq<real>, order: seq<int>, key: real, from: nat): (p: nat)
    requires InRange(order, |keys|) && from <= |order|
    requires forall q :: 0 <= q < from ==> keys[order[q]] >= key
    ensures from <= p <= |order|
    ensures forall q :: 0 <= q < p ==> keys[order[q]] >= key
    ensures p < |order| ==> keys[order[p]] < key
    decreases |order| - from
  {
    if from == |order| || keys[order[from]] < key then from
    else FirstBelow(keys, order, key, from + 1)
  }

  /** One admissible result of the unstable descending sort: an insertion
      sort on positions. Its existence shows the sort contract above can be
      met for every key sequence. */
  method ArgsortDescending(keys: seq<real>) returns (order: seq<int>)
    ensures IsDescendingArgsort(keys, order)
  {
    order := [];
    var n := 0;
    while n < |keys|
      invariant 0 <= n <= |keys|
      invariant IsIndexPermutation(order, n)
      invariant DescendingAlong(keys, order)
    {
      order := InsertDescending(keys, order, n);
      n := n + 1;
    }
  }
}

=== FILE: schedule.dfy ===
/** How many optimisation steps and epochs the run takes. With one
    synchronised step per batch (`gradient_accumulation_steps = 1`), the
    number of update steps per epoch is the data loader's length. */
module Schedule {
  import opened PyRuntime

  /** The resolved `max_train_steps` and `num_train_epochs`. */
  datatype Plan = Plan(maxTrainSteps: int, numTrainEpochs: int)

  /** `max_train_steps` is taken as given, or, when absent, set to
      `num_train_epochs * steps_per_epoch`; then `num_train_epochs` becomes
      `ceil(max_train_steps / steps_per_epoch)`, which divides by zero when
      there are no steps per epoch. A shuffling loader that was built has at
      least one batch (`Dataset.LoaderLength`), so the script itself never
      takes that branch. */
  function TrainingPlan(maxTrainSteps: Option<int>, numTrainEpochs: int, stepsPerEpoch: nat): (r: Result<Plan>)
    ensures r.Ok? <==> stepsPerEpoch > 0
    ensures stepsPerEpoch == 0 ==> r == Err(ZeroDivision)
    ensures r.Ok? && maxTrainSteps.Some? ==> r.value.maxTrainSteps == maxTrainSteps.value
    ensures r.Ok? ==> (r.value.numTrainEpochs - 1) * stepsPerEpoch < r.value.maxTrainSteps
                      <= r.value.numTrainEpochs * stepsPerEpoch
    ensures r.Ok? && maxTrainSteps.None? ==> r.value == Plan(numTrainEpochs * stepsPerEpoch, numTrainEpochs)
  {
    var steps := if maxTrainSteps.Some? then maxTrainSteps.value else numTrainEpochs * stepsPerEpoch;
    match CeilDiv(steps, stepsPerEpoch)
    case Err(e) => Err(e)
    case Ok(epochs) =>
      if maxTrainSteps.None? then
        DerivedBudgetKeepsEpochs(numTrainEpochs, stepsPerEpoch, epochs);
        Ok(Plan(steps, epochs))
      else Ok(Plan(steps, epochs))
  }

  /** A budget derived as `epochs * steps_per_epoch` gives back `epochs`
      under the ceiling. */
  lemma DerivedBudgetKeepsEpochs(epochs: int, stepsPerEpoch: nat, ceiling: int)
    requires stepsPerEpoch > 0
    requires (ceiling - 1) * stepsPerEpoch < epochs * stepsPerEpoch <= ceiling * stepsPerEpoch
    ensures ceiling == epochs
  {
    assert (epochs - 1) * stepsPerEpoch == epochs * stepsPerEpoch - stepsPerEpoch;
    CeilUnique(epochs * stepsPerEpoch, stepsPerEpoch, ceiling, epochs);
  }

  /** A positive step budget needs at least one epoch; a non-positive one
      runs none. */
  lemma EpochsPositiveIffSteps(p: Plan, stepsPerEpoch: nat)
    requires stepsPerEpoch > 0
    requires (p.numTrainEpochs - 1) * stepsPerEpoch < p.maxTrainSteps <= p.numTrainEpochs * stepsPerEpoch
    ensures p.numTrainEpochs >= 1 <==> p.maxTrainSteps > 0
  {
    if p.numTrainEpochs >= 1 {
      MulMonotone(0, p.numTrainEpochs - 1, stepsPerEpoch);
    } else {
      MulMonotone(p.numTrainEpochs, 0, stepsPerEpoch);
    }
  }
}

=== FILE: table.dfy ===
/** The live token-embedding table and the discipline the training loop
    keeps on it: the two composed rows written at the placeholder ids, the
    restore of every other row from the snapshot through the boolean mask
    `index_no_updates`, and the validation hook's write at the object
    placeholder. Rows are opaque values; ids follow Python indexing, so a
    negative id counts from the end of the table. */
module EmbeddingTable {
  import opened PyRuntime

  /** `table[i] = row`. */
  function WriteRow<Row>(table: seq<Row>, i: int, row: Row): (r: Result<seq<Row>>)
    ensures r.Ok? <==> -(|table| as int) <= i < |table|
    ensures r.Err? ==> r.error == IndexOutOfRange
    ensures r.Ok? ==> |r.value| == |table| &&
                      forall j :: 0 <= j < |table| ==> r.value[j] == (if j == Wrap(i, |table|).value then row else table[j])
  {
    match Wrap(i, |table|)
    case Err(e) => Err(e)
    case Ok(k) => Ok(table[k := row])
  }

  /** Both `placeholder_token_id - 1` and `placeholder_token_id` index a
      table of `n` rows. */
  predicate Addressable(pid: int, n: nat) {
    -(n as int) <= pid - 1 && pid < n
  }

  /** The row the attribute embedding is written to. */
  function AttrSlot(pid: int, n: nat): nat
    requires Addressable(pid, n)
  {
    Wrap(pid - 1, n).value
  }

  /** The row the object embedding is written to. */
  function ObjSlot(pid: int, n: nat): nat
    requires Addressable(pid, n)
  {
    Wrap(pid, n).value
  }

  predicate IsSlot(pid: int, n: nat, i: int)
    requires Addressable(pid, n)
  {
    i == AttrSlot(pid, n) || i == ObjSlot(pid, n)
  }

  /** The two placeholder rows are different rows exactly when the table
      has more than one row; in a one-row table id 0 wraps `0 - 1` onto
      itself. */
  lemma SlotsDistinct(pid: int, n: nat)
    requires Addressable(pid, n)
    ensures AttrSlot(pid, n) < n && ObjSlot(pid, n) < n
    ensures AttrSlot(pid, n) != ObjSlot(pid, n) <==> n > 1
  {
  }

  /** Every row off the placeholders equals the snapshot's row. */
  ghost predicate AgreesOffSlots<Row>(t: seq<Row>, snapshot: seq<Row>, pid: int)
    requires Addressable(pid, |snapshot|)
  {
    |t| == |snapshot| && forall i :: 0 <= i < |t| && !IsSlot(pid, |t|, i) ==> t[i] == snapshot[i]
  }

  /** Lines 669-670: the attribute row at `placeholder_token_id - 1`, then
      the object row at `placeholder_token_id`. */
  function Compose<Row>(table: seq<Row>, pid: int, attr: Row, obj: Row): (r: Result<seq<Row>>)
    ensures r.Ok? <==> Addressable(pid, |table|)
    ensures r.Err? ==> r.error == IndexOutOfRange
    ensures r.Ok? ==> |r.value| == |table|
    ensures r.Ok? ==> r.value[ObjSlot(pid, |table|)] == obj
    ensures r.Ok? && |table| > 1 ==> r.value[AttrSlot(pid, |table|)] == attr
    ensures r.Ok? ==> forall j :: 0 <= j < |table| && !IsSlot(pid, |table|, j) ==> r.value[j] == table[j]
  {
    match WriteRow(table, pid - 1, attr)
    case Err(e) => Err(e)
    case Ok(t) => WriteRow(t, pid, obj)
  }

  /** Lines 739-741: `index_no_updates`, true everywhere except at the two
      placeholder ids. */
  function NoUpdateMask(pid: int, n: nat): (r: Result<seq<bool>>)
    ensures r.Ok? <==> Addressable(pid, n)
    ensures r.Ok? ==> |r.value| == n && forall i :: 0 <= i < n ==> (r.value[i] <==> !IsSlot(pid, n, i))
  {
    var ones := seq(n, _ => true);
    match WriteRow(ones, pid - 1, false)
    case Err(e) => Err(e)
    case Ok(m) => WriteRow(m, pid, false)
  }

  /** Lines 743-746: `weight[mask] = snapshot[mask]`, a boolean-mask
      assignment: masked rows come from the snapshot, the others stay.
      `Restore` states what it achieves with the `index_no_updates` mask. */
  function RestoreMasked<Row>(live: seq<Row>, snapshot: seq<Row>, mask: seq<bool>): (r: seq<Row>)
    requires |live| == |snapshot| == |mask|
    ensures |r| == |live|
    ensures forall i :: 0 <= i < |r| ==> r[i] == (if mask[i] then snapshot[i] else live[i])
  {
    seq(|live|, i requires 0 <= i < |live| => if mask[i] then snapshot[i] else live[i])
  }

  /** Restoring a second time through the same mask changes nothing, and the
      snapshot is its own restore. */
  lemma RestoreMaskedIdempotent<Row>(live: seq<Row>, snapshot: seq<Row>, mask: seq<bool>)
    requires |live| == |snapshot| == |mask|
    ensures RestoreMasked(RestoreMasked(live, snapshot, mask), snapshot, mask) == RestoreMasked(live, snapshot, mask)
    ensures RestoreMasked(snapshot, snapshot, mask) == snapshot
  {
  }

  /** The table after the backward pass and optimiser step, whose effect on
      each row is left arbitrary: `perturb(t, i)` is row `i` afterwards. */
  function Perturbed<Row>(t: seq<Row>, perturb: (seq<Row>, nat) -> Row): (r: seq<Row>)
    ensures |r| == |t|
  {
    seq(|t|, i requires 0 <= i < |t| => perturb(t, i))
  }

  /** The perturbation leaves the placeholder rows as they are. In the
      script the optimiser holds only the weighting networks' parameters,
      so nothing touches the table between the write and the restore. */
  ghost predicate SparesSlots<Row(!new)>(perturb: (seq<Row>, nat) -> Row, pid: int, n: nat)
    requires Addressable(pid, n)
  {
    forall t: seq<Row>, i: nat :: |t| == n && i < n && IsSlot(pid, n, i) ==> perturb(t, i) == t[i]
  }

  /** Lines 739-746 after the written table has been perturbed: build
      `index_no_updates` and restore through it. Every row but the two
      placeholders is the snapshot's again, and the placeholders keep what
      the perturbation left. */
  function Restore<Row>(written: seq<Row>, snapshot: seq<Row>, pid: int, perturb: (seq<Row>, nat) -> Row)
    : (r: seq<Row>)
    requires |written| == |snapshot| && Addressable(pid, |written|)
    ensures AgreesOffSlots(r, snapshot, pid)
    ensures forall i :: 0 <= i < |written| && IsSlot(pid, |written|, i) ==> r[i] == perturb(written, i)
  {
    RestoreMasked(Perturbed(written, perturb), snapshot, NoUpdateMask(pid, |written|).value)
  }

  /** One batch's effect on the table with no failure in between: write the
      two composed rows, perturb, restore. Whatever the perturbation does,
      afterwards every non-placeholder row is the snapshot's, and the
      placeholder rows are left as the perturbation left them. */
  function Update<Row>(table: seq<Row>, snapshot: seq<Row>, pid: int, attr: Row, obj: Row,
                       perturb: (seq<Row>, nat) -> Row): (r: Result<seq<Row>>)
    requires |table| == |snapshot|
    ensures r.Ok? <==> Addressable(pid, |table|)
    ensures r.Err? ==> r.error == IndexOutOfRange
    ensures r.Ok? ==> AgreesOffSlots(r.value, snapshot, pid)
    ensures r.Ok? ==> forall i :: 0 <= i < |table| && IsSlot(pid, |table|, i) ==>
                        r.value[i] == perturb(Compose(table, pid, attr, obj).value, i)
  {
    match Compose(table, pid, attr, obj)
    case Err(e) => Err(e)
    case Ok(written) => Ok(Restore(written, snapshot, pid, perturb))
  }

  /** When the perturbation spares the placeholders, they still hold the
      rows just written (both of them, unless a one-row table makes them
      the same row). */
  lemma UpdateKeepsComposedRows<Row(!new)>(table: seq<Row>, snapshot: seq<Row>, pid: int, attr: Row, obj: Row,
                                     perturb: (seq<Row>, nat) -> Row)
    requires |table| == |snapshot| && Addressable(pid, |table|)
    requires SparesSlots(perturb, pid, |table|)
    ensures Update(table, snapshot, pid, attr, obj, perturb).Ok?
    ensures Update(table, snapshot, pid, attr, obj, perturb).value[ObjSlot(pid, |table|)] == obj
    ensures |table| > 1 ==> Update(table, snapshot, pid, attr, obj, perturb).value[AttrSlot(pid, |table|)] == attr
  {
    var written := Compose(table, pid, attr, obj).value;
    assert perturb(written, ObjSlot(pid, |table|)) == written[ObjSlot(pid, |table|)];
    assert perturb(written, AttrSlot(pid, |table|)) == written[AttrSlot(pid, |table|)];
  }

  /** Line 754: the validation hook writes the explanation row at the object
      placeholder and nowhere else. */
  function ValidationWrite<Row>(table: seq<Row>, pid: int, top: Row): (r: Result<seq<Row>>)
    ensures r.Ok? <==> -(|table| as int) <= pid < |table|
    ensures Addressable(pid, |table|) ==> r.Ok? && |r.value| == |table| && r.value[ObjSlot(pid, |table|)] == top
    ensures Addressable(pid, |table|) ==>
              forall j :: 0 <= j < |table| && j != ObjSlot(pid, |table|) ==> r.value[j] == table[j]
  {
    WriteRow(table, pid, top)
  }
}

=== FILE: training.dfy ===
/** The epoch and batch loop of the training script, reduced to what it
    does to the token table and to its step counter. The neural work of a
    step (weighting networks, denoiser forward and backward pass, loss,
    optimiser and scheduler) is replaced by per-step inputs: the two
    composed rows, the explanation row for the validation hook, and an
    arbitrary effect on the table before the restore. One synchronised
    optimisation step is taken per batch. */
module Training {
  import opened PyRuntime
  import opened Schedule
  import opened EmbeddingTable
  import Ranking
  import CandidateFilter

  /** What stands in for the neural computation of step `k` (counted from
      0): the attribute and object rows written at the placeholders, the
      explanation row the validation hook writes, and the effect of the
      backward pass and optimiser step on row `i` of the table. */
  datatype StepInputs<!Row> = StepInputs(
    attr: nat -> Row,
    obj: nat -> Row,
    top: nat -> Row,
    perturb: (nat, seq<Row>, nat) -> Row)

  /** The sizes a step checks on the way: `vocabulary_size`, the number
      of candidate token ids `get_vocabulary_indices` returned, the number
      of attribute words read from the word list, `word_size`, and
      `num_explanation_tokens`. Line 396 makes the candidate count
      `SliceStop(vocabulary_size, T)` for `T` precomputed text encodings,
      never more than a positive `vocabulary_size` (see `ObjectSizesFit`);
      the step checks a larger count at the matmul of line 659 all the
      same. */
  datatype Selections = Selections(vocabularySize: int, candidates: nat, attributeWords: nat, wordSize: int,
                                   explanationTokens: int)

  /** Both weighting networks end in `weights.view(-1, sequence_length)`
      (line 417): one weight per input row, viewed with `vocabulary_size`
      columns for the candidates and `word_size` columns for the attribute
      words. */
  predicate ViewsFit(sel: Selections) {
    ViewRows(sel.candidates, sel.vocabularySize).Ok? && ViewRows(sel.attributeWords, sel.wordSize).Ok?
  }

  /** Neither read of a step goes past its list: the noun-mask loop reads
      `vocabulary_size` candidates, and the explanation subset reads
      `num_explanation_tokens` of the `vocabulary_size` sorted positions. */
  predicate ReadsFit(sel: Selections) {
    sel.vocabularySize <= sel.candidates && sel.explanationTokens <= sel.vocabularySize
  }

  /** Line 659: the object weights, viewed as `candidates / vocabulary_size`
      rows of `vocabulary_size` columns, multiply the `candidates` rows of
      the vocabulary only when the two inner sizes agree. */
  predicate MatmulFits(sel: Selections) {
    sel.candidates == sel.vocabularySize
  }

  predicate SelectionsFit(sel: Selections) {
    ViewsFit(sel) && ReadsFit(sel) && MatmulFits(sel)
  }

  /** The object network's view and the noun-mask reads both succeed
      exactly when `vocabulary_size` is positive and at most the number
      `tokens` of precomputed text encodings (line 386), given that the
      candidates are the `[:vocabulary_size]` prefix of the ranking of
      those encodings (line 396); the object matmul then fits too. A zero
      or negative size fails in the view; a size above the encoding count
      leaves fewer candidates than columns, which the view rejects unless
      there are no candidates at all, in which case the first mask read
      fails. */
  lemma ObjectSizesFit(vocabularySize: int, tokens: nat)
    ensures var candidates := SliceStop(vocabularySize, tokens);
            ViewRows(candidates, vocabularySize).Ok? && vocabularySize <= candidates
            <==> 0 < vocabularySize <= tokens
    ensures vocabularySize > 0 ==> SliceStop(vocabularySize, tokens) <= vocabularySize
  {
  }

  /** The two checks are exactly those of the candidate filter: with one
      object weight per candidate position, the noun mask is built, and the
      explanation subset taken from the masked weights, exactly when the
      sizes fit. */
  lemma SelectionsFitIffFilterSucceeds(alphas: seq<real>, candidates: seq<int>, decode: int -> string,
                                       posTag: string -> string, order: seq<int>, k: int)
    requires |alphas| <= |candidates| ==>
               Ranking.IsDescendingArgsort(CandidateFilter.Magnitudes(
                 CandidateFilter.MaskWeights(alphas, CandidateFilter.NounMask(candidates, |alphas|, decode, posTag).value)), order)
    ensures forall words: nat, wordSize: int :: ReadsFit(Selections(|alphas|, |candidates|, words, wordSize, k)) <==>
              && CandidateFilter.NounMask(candidates, |alphas|, decode, posTag).Ok?
              && CandidateFilter.ExplanationSubset(
                   CandidateFilter.MaskWeights(alphas, CandidateFilter.NounMask(candidates, |alphas|, decode, posTag).value),
                   order, k).Ok?
  {
  }

  /** Whether a step on a table of `n` rows completes. */
  predicate StepRuns(sel: Selections, pid: int, n: nat, validationSteps: int) {
    SelectionsFit(sel) && Addressable(pid, n) && validationSteps != 0
  }

  /** The error a step that does not complete raises, by the first check
      that fails: RuntimeError from the object network's view, IndexError
      from the noun-mask reads, RuntimeError from the object matmul or the
      attribute network's view, IndexError from a placeholder write or the explanation reads,
      and last ZeroDivisionError from the validation test. */
  function StepError(sel: Selections, pid: int, n: nat): Error {
    if ViewRows(sel.candidates, sel.vocabularySize).Err? then ShapeMismatch
    else if sel.vocabularySize > sel.candidates then IndexOutOfRange
    else if sel.candidates != sel.vocabularySize then ShapeMismatch
    else if ViewRows(sel.attributeWords, sel.wordSize).Err? then ShapeMismatch
    else if SelectionsFit(sel) && Addressable(pid, n) then ZeroDivision
    else IndexOutOfRange
  }

  /** A finished run: the table, `global_step`, the table at the end of
      every step, and the (epoch, global step) of every checkpoint save. */
  datatype Run<Row> = Run(table: seq<Row>, globalStep: nat, boundaries: seq<seq<Row>>, saves: seq<(int, int)>)

  /** One batch and the hooks after it, for the step that makes the step
      counter `k + 1`, in the script's order: the object network's output,
      the noun-mask loop, the object matmul, the attribute network's
      output, the two placeholder writes, the explanation subset, the
      update and restore, then, when the new count is a multiple of
      `validation_steps`, the validation write. Python's `%` and Dafny's
      agree on whether the remainder is zero, whatever the divisor's sign;
      a zero divisor raises ZeroDivisionError. */
  function Step<Row>(table: seq<Row>, snapshot: seq<Row>, pid: int, validationSteps: int, sel: Selections, k: nat,
                     inputs: StepInputs<Row>): (r: Result<seq<Row>>)
    requires |table| == |snapshot|
    ensures r.Ok? <==> StepRuns(sel, pid, |table|, validationSteps)
    ensures r.Err? ==> r.error == StepError(sel, pid, |table|)
    ensures r.Ok? ==> |r.value| == |table| && AgreesOffSlots(r.value, snapshot, pid)
    ensures r.Ok? && (k + 1) % validationSteps == 0 ==> r.value[ObjSlot(pid, |table|)] == inputs.top(k)
    ensures r.Ok? && (k + 1) % validationSteps == 0 ==>
              r == ValidationWrite(Update(table, snapshot, pid, inputs.attr(k), inputs.obj(k),
                                          (t: seq<Row>, i: nat) => inputs.perturb(k, t, i)).value,
                                   pid, inputs.top(k))
    ensures r.Ok? && (k + 1) % validationSteps != 0 ==>
              r.value == Update(table, snapshot, pid, inputs.attr(k), inputs.obj(k),
                                (t: seq<Row>, i: nat) => inputs.perturb(k, t, i)).value
  {
    if ViewRows(sel.candidates, sel.vocabularySize).Err? then Err(ShapeMismatch)
    else if sel.vocabularySize > sel.candidates then Err(IndexOutOfRange)
    else if sel.candidates != sel.vocabularySize then Err(ShapeMismatch)
    else if ViewRows(sel.attributeWords, sel.wordSize).Err? then Err(ShapeMismatch)
    else
      match Compose(table, pid, inputs.attr(k), inputs.obj(k))
      case Err(e) => Err(e)
      case Ok(written) =>
        if sel.explanationTokens > sel.vocabularySize then Err(IndexOutOfRange)
        else
          var updated := Restore(written, snapshot, pid, (t: seq<Row>, i: nat) => inputs.perturb(k, t, i));
          if validationSteps == 0 then Err(ZeroDivision)
          else if (k + 1) % validationSteps == 0 then ValidationWrite(updated, pid, inputs.top(k))
          else Ok(updated)
  }

  /** The loop's record of the table: the current table is the snapshot
      before the first step and the last boundary after it, and every
      boundary agrees with the snapshot off the placeholders. */
  ghost predicate Tracks<Row>(table: seq<Row>, snapshot: seq<Row>, boundaries: seq<seq<Row>>, pid: int,
                              validationSteps: int, sel: Selections)
  {
    && |table| == |snapshot|
    && table == (if |boundaries| == 0 then snapshot else boundaries[|boundaries| - 1])
    && (|boundaries| > 0 ==> StepRuns(sel, pid, |snapshot|, validationSteps))
    && (Addressable(pid, |snapshot|) ==>
          forall k :: 0 <= k < |boundaries| ==> AgreesOffSlots(boundaries[k], snapshot, pid))
  }

  /** A step's table, agreeing with the snapshot off the placeholders,
      extends the record and leaves the earlier boundaries as they were. */
  lemma TracksStep<Row>(table: seq<Row>, snapshot: seq<Row>, boundaries: seq<seq<Row>>, pid: int,
                        validationSteps: int, sel: Selections, next: seq<Row>, n: nat)
    requires Tracks(table, snapshot, boundaries, pid, validationSteps, sel) && n <= |boundaries|
    requires StepRuns(sel, pid, |snapshot|, validationSteps) && AgreesOffSlots(next, snapshot, pid)
    ensures Tracks(next, snapshot, boundaries + [next], pid, validationSteps, sel)
    ensures (boundaries + [next])[..n] == boundaries[..n]
  {
  }

  /** The first `n` step boundaries of a run from the snapshot: `Step`
      applied to each table in turn, the first step that fails ending the
      replay with its error. */
  function Replay<Row>(snapshot: seq<Row>, n: nat, pid: int, validationSteps: int, sel: Selections,
                       inputs: StepInputs<Row>): (r: Result<seq<seq<Row>>>)
    ensures r.Ok? ==> |r.value| == n && forall i :: 0 <= i < n ==> |r.value[i]| == |snapshot|
    ensures r.Ok? <==> n == 0 || StepRuns(sel, pid, |snapshot|, validationSteps)
    decreases n
  {
    if n == 0 then Ok([])
    else
      match Replay(snapshot, n - 1, pid, validationSteps, sel, inputs)
      case Err(e) => Err(e)
      case Ok(bs) =>
        match Step(Before(snapshot, bs, n - 1), snapshot, pid, validationSteps, sel, n - 1, inputs)
        case Err(e) => Err(e)
        case Ok(next) => Ok(bs + [next])
  }

  /** The boundaries recorded so far are those of the replay: the loop runs
      the modelled step, and nothing else, between two boundaries.
      `FollowsAt` states it boundary by boundary. */
  ghost predicate Follows<Row>(snapshot: seq<Row>, boundaries: seq<seq<Row>>, pid: int, validationSteps: int,
                               sel: Selections, inputs: StepInputs<Row>)
  {
    Replay(snapshot, |boundaries|, pid, validationSteps, sel, inputs) == Ok(boundaries)
  }

  /** In a record that follows `Step`, boundary `k` is step `k` applied to
      the table before it. */
  lemma {:induction false} FollowsAt<Row>(snapshot: seq<Row>, boundaries: seq<seq<Row>>, pid: int,
                                          validationSteps: int, sel: Selections, inputs: StepInputs<Row>, k: nat)
    requires Follows(snapshot, boundaries, pid, validationSteps, sel, inputs) && k < |boundaries|
    ensures StepsTo(Before(snapshot, boundaries, k), boundaries[k], snapshot, pid, validationSteps, sel, k, inputs)
    decreases |boundaries|
  {
    var last := |boundaries| - 1;
    var shorter := Replay(snapshot, last, pid, validationSteps, sel, inputs).value;
    assert boundaries == shorter + [boundaries[last]];
    assert shorter == boundaries[..last];
    if k < last {
      FollowsAt(snapshot, shorter, pid, validationSteps, sel, inputs, k);
      assert Before(snapshot, shorter, k) == Before(snapshot, boundaries, k) && shorter[k] == boundaries[k];
    } else {
      assert Before(snapshot, shorter, k) == Before(snapshot, boundaries, k);
    }
  }

  /** The table before step `k`: the snapshot for the first step, the
      previous boundary after that. */
  function Before<Row>(snapshot: seq<Row>, boundaries: seq<seq<Row>>, k: nat): seq<Row>
    requires k <= |boundaries|
  {
    if k == 0 then snapshot else boundaries[k - 1]
  }

  /** Step `k` turns `prev` into `next`. */
  ghost predicate StepsTo<Row>(prev: seq<Row>, next: seq<Row>, snapshot: seq<Row>, pid: int, validationSteps: int,
                               sel: Selections, k: nat, inputs: StepInputs<Row>)
  {
    |prev| == |snapshot| && Step(prev, snapshot, pid, validationSteps, sel, k, inputs) == Ok(next)
  }

  /** A step taken from the last boundary extends a record that follows
      `Step`. */
  lemma FollowsStep<Row>(table: seq<Row>, snapshot: seq<Row>, boundaries: seq<seq<Row>>, pid: int,
                         validationSteps: int, sel: Selections, inputs: StepInputs<Row>, next: seq<Row>)
    requires Follows(snapshot, boundaries, pid, validationSteps, sel, inputs)
    requires table == (if |boundaries| == 0 then snapshot else boundaries[|boundaries| - 1])
    requires StepsTo(table, next, snapshot, pid, validationSteps, sel, |boundaries|, inputs)
    ensures Follows(snapshot, boundaries + [next], pid, validationSteps, sel, inputs)
  {
    assert Before(snapshot, boundaries, |boundaries|) == table;
  }

  /** The state an epoch hands on: the table, the table at the end of every
      step so far (their number is `global_step`), and the checkpoint saves. */
  datatype EpochEnd<Row> = EpochEnd(table: seq<Row>, boundaries: seq<seq<Row>>, saves: seq<(int, int)>)

  /** The batch loop of epoch `epoch`: up to `stepsPerEpoch` steps, leaving
      early, after the save, when the step count reaches `budget`. */
  method RunEpoch<Row>(table: seq<Row>, snapshot: seq<Row>, boundaries: seq<seq<Row>>, pid: int,
                       validationSteps: int, sel: Selections, epoch: int, stepsPerEpoch: nat, budget: int,
                       inputs: StepInputs<Row>)
    returns (r: Result<EpochEnd<Row>>)
    requires Tracks(table, snapshot, boundaries, pid, validationSteps, sel) && |boundaries| < budget
    ensures r.Err? <==> stepsPerEpoch > 0 && !StepRuns(sel, pid, |snapshot|, validationSteps)
    ensures r.Err? ==> r.error == StepError(sel, pid, |snapshot|)
    ensures r.Ok? ==> Tracks(r.value.table, snapshot, r.value.boundaries, pid, validationSteps, sel)
    ensures r.Ok? ==> |r.value.boundaries| == Min(|boundaries| + stepsPerEpoch, budget)
    ensures r.Ok? ==> r.value.boundaries[..|boundaries|] == boundaries
    ensures r.Ok? ==> r.value.saves == if |r.value.boundaries| == budget then [(epoch, budget)] else []
    ensures r.Ok? && Follows(snapshot, boundaries, pid, validationSteps, sel, inputs) ==>
              Follows(snapshot, r.value.boundaries, pid, validationSteps, sel, inputs)
  {
    var current, steps := table, boundaries;
    var batch := 0;
    while batch < stepsPerEpoch
      invariant 0 <= batch <= stepsPerEpoch && |steps| == |boundaries| + batch < budget
      invariant Tracks(current, snapshot, steps, pid, validationSteps, sel) && steps[..|boundaries|] == boundaries
      invariant Follows(snapshot, boundaries, pid, validationSteps, sel, inputs) ==>
                  Follows(snapshot, steps, pid, validationSteps, sel, inputs)
    {
      var next := Step(current, snapshot, pid, validationSteps, sel, |steps|, inputs);
      if next.Err? {
        return Err(next.error);
      }
      TracksStep(current, snapshot, steps, pid, validationSteps, sel, next.value, |boundaries|);
      if Follows(snapshot, boundaries, pid, validationSteps, sel, inputs) {
        FollowsStep(current, snapshot, steps, pid, validationSteps, sel, inputs, next.value);
      }
      current, steps := next.value, steps + [next.value];
      if |steps| == budget {
        return Ok(EpochEnd(current, steps, [(epoch, budget)]));
      }
      batch := batch + 1;
    }
    return Ok(EpochEnd(current, steps, []));
  }

  /** The training loop from the snapshot of the table (taken before the
      first step, when the table equals it) to the end. The loop runs
      `num_train_epochs` epochs of `stepsPerEpoch` batches; after each batch
      it counts the step, runs the validation write when the count is a
      multiple of `validation_steps`, and saves and leaves the epoch when
      the count reaches `max_train_steps`. */
  method Train<Row>(snapshot: seq<Row>, pid: int, maxTrainSteps: Option<int>, numTrainEpochs: int,
                    stepsPerEpoch: nat, validationSteps: int, sel: Selections, inputs: StepInputs<Row>)
    returns (r: Result<Run<Row>>)
    ensures stepsPerEpoch == 0 ==> r == Err(ZeroDivision)
    ensures stepsPerEpoch > 0 ==>
              var budget := TrainingPlan(maxTrainSteps, numTrainEpochs, stepsPerEpoch).value.maxTrainSteps;
              (r.Err? <==> budget > 0 && !StepRuns(sel, pid, |snapshot|, validationSteps))
              && (r.Err? ==> r.error == StepError(sel, pid, |snapshot|))
    ensures r.Ok? ==>
              var plan := TrainingPlan(maxTrainSteps, numTrainEpochs, stepsPerEpoch).value;
              && r.value.globalStep == Max(plan.maxTrainSteps, 0)
              && r.value.saves == (if plan.maxTrainSteps > 0 then [(plan.numTrainEpochs - 1, plan.maxTrainSteps)] else [])
    ensures r.Ok? ==>
              && |r.value.boundaries| == r.value.globalStep
              && r.value.table == (if r.value.globalStep == 0 then snapshot else r.value.boundaries[r.value.globalStep - 1])
              && (r.value.globalStep > 0 ==> StepRuns(sel, pid, |snapshot|, validationSteps))
              && forall k :: 0 <= k < r.value.globalStep ==> AgreesOffSlots(r.value.boundaries[k], snapshot, pid)
    ensures r.Ok? ==> Follows(snapshot, r.value.boundaries, pid, validationSteps, sel, inputs)
  {
    var plan := TrainingPlan(maxTrainSteps, numTrainEpochs, stepsPerEpoch);
    if plan.Err? {
      return Err(plan.error);
    }
    EpochsPositiveIffSteps(plan.value, stepsPerEpoch);
    r := RunEpochs(snapshot, pid, validationSteps, sel, plan.value.maxTrainSteps, plan.value.numTrainEpochs,
                   stepsPerEpoch, inputs);
  }

  /** The epoch loop of `Train` under a resolved plan: `epochs` epochs of
      `stepsPerEpoch` batches, `epochs` being the ceiling of `budget` over
      `stepsPerEpoch`. */
  method RunEpochs<Row>(snapshot: seq<Row>, pid: int, validationSteps: int, sel: Selections, budget: int,
                        epochs: int, stepsPerEpoch: nat, inputs: StepInputs<Row>)
    returns (r: Result<Run<Row>>)
    requires stepsPerEpoch > 0 && (epochs - 1) * stepsPerEpoch < budget <= epochs * stepsPerEpoch
    requires epochs > 0 <==> budget > 0
    ensures r.Err? <==> budget > 0 && !StepRuns(sel, pid, |snapshot|, validationSteps)
    ensures r.Err? ==> r.error == StepError(sel, pid, |snapshot|)
    ensures r.Ok? ==>
              && r.value.globalStep == Max(budget, 0)
              && r.value.saves == (if budget > 0 then [(epochs - 1, budget)] else [])
              && |r.value.boundaries| == r.value.globalStep
              && r.value.table == (if r.value.globalStep == 0 then snapshot else r.value.boundaries[r.value.globalStep - 1])
              && (r.value.globalStep > 0 ==> StepRuns(sel, pid, |snapshot|, validationSteps))
              && forall k :: 0 <= k < r.value.globalStep ==> AgreesOffSlots(r.value.boundaries[k], snapshot, pid)
    ensures r.Ok? ==> Follows(snapshot, r.value.boundaries, pid, validationSteps, sel, inputs)
  {
    var table := snapshot;
    var boundaries: seq<seq<Row>> := [];
    var saves: seq<(int, int)> := [];
    var epoch, start := 0, 0;
    while epoch < epochs
      invariant 0 <= epoch <= Max(epochs, 0) && start == epoch * stepsPerEpoch
      invariant Tracks(table, snapshot, boundaries, pid, validationSteps, sel)
      invariant Follows(snapshot, boundaries, pid, validationSteps, sel, inputs)
      invariant saves == [] ==> |boundaries| == start && (epochs >= 1 ==> start < budget)
      invariant saves != [] ==> saves == [(epochs - 1, budget)] && |boundaries| == budget > 0 && epoch == epochs
    {
      EpochBoundary(budget, stepsPerEpoch, epochs, epoch);
      var ended := RunEpoch(table, snapshot, boundaries, pid, validationSteps, sel, epoch, stepsPerEpoch, budget, inputs);
      if ended.Err? {
        return Err(ended.error);
      }
      table, boundaries, saves := ended.value.table, ended.value.boundaries, saves + ended.value.saves;
      epoch, start := epoch + 1, start + stepsPerEpoch;
    }
    // With no save, the invariants put `epochs * stepsPerEpoch` steps short
    // of the budget, which the ceiling rules out.
    assert epochs >= 1 ==> saves != [];
    return Ok(Run(table, |boundaries|, boundaries, saves));
  }

  /** Where an epoch of `stepsPerEpoch` steps, starting at step
      `epoch * stepsPerEpoch`, stands against a budget whose ceiling over
      the epoch length is `epochs`: reaching the budget inside the epoch
      makes it the last, and finishing the epoch short of the budget leaves
      another one to run. */
  lemma EpochBoundary(budget: int, stepsPerEpoch: nat, epochs: int, epoch: nat)
    requires stepsPerEpoch > 0 && (epochs - 1) * stepsPerEpoch < budget <= epochs * stepsPerEpoch
    ensures (epoch + 1) * stepsPerEpoch == epoch * stepsPerEpoch + stepsPerEpoch
    ensures epoch * stepsPerEpoch < budget <= (epoch + 1) * stepsPerEpoch ==> epoch + 1 == epochs
    ensures (epoch + 1) * stepsPerEpoch < budget ==> epoch + 1 < epochs
  {
    assert (epoch + 1) * stepsPerEpoch == epoch * stepsPerEpoch + stepsPerEpoch;
    if epoch * stepsPerEpoch < budget <= (epoch + 1) * stepsPerEpoch {
      CeilUnique(budget, stepsPerEpoch, epoch + 1, epochs);
    }
    if (epoch + 1) * stepsPerEpoch < budget && epoch + 1 >= epochs {
      MulMonotone(epochs, epoch + 1, stepsPerEpoch);
    }
  }
}

=== FILE: vocabulary.dfy ===
/** The candidate object vocabulary: the token-table rows whose text
    encodings are most similar to the mean target-image feature. The
    similarity scores themselves (CLIP encodings and cosine similarity) are
    inputs; the model covers the ranking and the prefix taken of it. */
module VocabularyIndexer {
  import opened PyRuntime
  import opened Ranking

  /** `sorted_indices[:vocabulary_size]`, where `order` is the index half of
      `torch.sort(scores, descending=True)`. */
  function VocabularyIndices(scores: seq<real>, order: seq<int>, vocabularySize: int): (r: seq<int>)
    requires IsDescendingArgsort(scores, order)
    ensures vocabularySize >= 0 ==> |r| == Min(vocabularySize, |scores|)
    ensures vocabularySize < 0 ==> |r| == Max(|scores| + vocabularySize, 0)
    ensures IsTopSelection(scores, r)
  {
    var n := SliceStop(vocabularySize, |scores|);
    PrefixIsTopSelection(scores, order, n);
    order[..n]
  }
}
